=== FILE: README.md ===
# snowcast core, modelled in Dafny

snowcast is a multi-station audio broadcast service. A server owns N
stations, each bound to one song file. Clients connect over TCP and send
Hello with their UDP port. The server replies with Welcome, which carries
the station count. After that the client sends SetStation and the server
answers with Announce, which names the station's song. Every station loops
over its file forever and sends each 1024-byte chunk by UDP to every port
subscribed to it, on the server's own host name.

This project models the pure logic of `src/structs.rs`:

- `Base` (`base.dfy`): `u8`/`u16` integer types, `Option`, and a `Result`
  whose `Error` stands for `process::exit(1)`, panics and short reads.
- `Codec` (`codec.dfy`): `Message::new`, the 258-byte frame built by
  `Message::send`, the parse done by `Message::receive` and the command
  filter of `Message::receive_and_expect`. A TCP stream is the sequence of
  bytes the peer sends before closing. `read_exact` takes 258 of them or
  fails with `ShortRead`.
- `Session` (`session.dfy`): the server's Hello/Welcome handshake, the
  client's side of it, the station-list update of `handle_client` on each
  SetStation, and the Welcome and Announce messages. It proves an
  invariant: a client's port is in exactly one list, the list of the
  station it last chose, and appears there exactly once.
- `Playback` (`playback.dfy`): the file cursor of `play_song_chunk`, the
  chunk read at the cursor, and the fan-out to the port list. It proves
  what one pass of the loop sends and where the cursor is after any
  number of ticks.

The model follows these behaviours of the code:

- The cursor rewinds only when `pos + 1024 > len`. A file of exactly k
  chunks therefore takes k + 1 ticks per pass. The last of those ticks
  reads nothing and sends 1024 zero bytes; chunk 0 comes only on the tick
  after it (`Playback.ExactChunks`).
- The Announce is built as lines 474-484 build it. A song path of exactly
  256 bytes is sent with length byte 0. A longer path panics at line 481
  after the station lists have been updated, and that ends the session
  (`Session.OnSetStation`, `Session.Selections`).
- An out-of-range SetStation panics in `Vec::get(..).unwrap()` before any
  list changes. The model returns `NoSuchStation` and changes no list.
- A protocol violation calls `exit(1)` in the source, which ends the whole
  process. The model returns a `Failure`, which ends only the computation
  that raised it.
- Nothing deduplicates ports across sessions. Two clients that announce
  the same UDP port are both appended. A switch by either one removes
  every copy of that port from the station it leaves. The subscription
  invariant is therefore stated for one client's port.
- The source has no cleanup on disconnect, so a closed session's port
  stays subscribed. The model has no disconnect step either.

## Model

| member | source | states |
|---|---|---|
| Codec.ReadU16 | src/structs.rs:120-122 | two bytes read big-endian give the u16 whose high byte is the first and low byte the second |
| Codec.New | src/structs.rs:61-85 | commands 0..2 give a Data message with the given u16, commands 3..4 a Text message with the given length and buffer, and every other command is `UnknownCommand` |
| Codec.Encode | src/structs.rs:86-106 | a frame has byte 0 = command; for Data, bytes 1..2 are the u16 big-endian and bytes 3..257 are zero; for Text, byte 1 is the length byte and bytes 2..257 are all 256 buffer bytes, whatever the length |
| Codec.Decode | src/structs.rs:112-145 | a frame decodes exactly when byte 0 is at most 4, into a well-formed message with that command; any other first byte is `UnknownCommand` |
| Codec.DecodeEncode | src/structs.rs:86-145 | decoding the frame of any message `Message::new` can build returns that message, including the Text length and all 256 buffer bytes |
| Codec.EncodeDecode | src/structs.rs:117-138 | re-encoding a decoded frame reproduces it if and only if its Data padding (bytes 3..257) is zero |
| Codec.PaddingIgnored | src/structs.rs:117-125 | two Data frames that agree on bytes 0..2 decode to the same result, whatever their padding |
| Codec.Receive | src/structs.rs:112-151 | receiving succeeds exactly when at least 258 bytes are available and the first is at most 4; it then returns the decode of the first 258 bytes and leaves the rest of the stream; fewer bytes give `ShortRead` with the count available, and a first byte above 4 gives `UnknownCommand` |
| Codec.ReceiveAndExpect | src/structs.rs:153-169 | the message is returned if and only if a full frame is available and its command is the expected one, and it is then what `receive` returns; a failure of `receive` is passed on unchanged, and another valid command gives `UnexpectedCommand` |
| Codec.ReceiveEncoded | src/structs.rs:153-169 | a stream that starts with a message's frame yields that message, under the expectation of its own command, and leaves exactly the following bytes |
| Codec.EncodeAll | src/structs.rs:86-111 | messages sent back to back occupy 258 bytes each, and slot i of the stream holds exactly the frame of message i |
| Codec.ReceiveMany | src/structs.rs:112-151 | n successive receives either fail, which they must when fewer than n*258 bytes are available, or return n well-formed messages and leave exactly the bytes after the first n*258 |
| Codec.ReceiveManySucceeds | src/structs.rs:112-151 | n receives succeed if and only if the stream holds n whole frames whose tags are all at most 4 |
| Codec.ReceiveManyDecodes | src/structs.rs:112-151 | when n receives succeed, message i is exactly the decode of the i-th 258-byte slot of the stream |
| Codec.ReceiveManyEncodeAll | src/structs.rs:112-151 | receiving n frames from the bytes of n sent messages returns those messages in sending order and leaves the trailing bytes |
| Session.Without | src/structs.rs:463 | `retain` removes every occurrence of the port and leaves every other port's count unchanged; a list without the port is returned as is |
| Session.WithoutConcat | src/structs.rs:463 | removal distributes over concatenation, so the remaining ports keep their relative order |
| Session.Subscribe | src/structs.rs:450-468 | a station number with no station fails and changes nothing; a first choice appends the port to the chosen list; a switch appends it to the new list and removes every copy from the old one; re-choosing the current station changes no list; no other list changes, no song path changes, and no other port's count changes anywhere |
| Session.Welcome | src/structs.rs:431 | Welcome is a well-formed Data message with command 2 carrying the song-path count truncated to 16 bits by `as u16`, which is the count itself whenever it is below 2^16 |
| Session.AnnounceAsWritten | src/structs.rs:474-484 | as written: paths longer than 256 bytes panic; otherwise the buffer starts with the path and the length byte is the path length modulo 256 |
| Session.AnnounceAsWrittenLosesLongName | src/structs.rs:474-484 | for a 256-byte path the as-written Announce declares length 0, so the name a receiver recovers is empty and differs from the path |
| Session.Announce | src/structs.rs:474-484 | corrected: Announce succeeds if and only if the path is shorter than 256 bytes; the receiver's slice of the first `length` bytes is then exactly the path, and the rest of the buffer is zero |
| Session.AnnounceAgreesBelowLimit | src/structs.rs:474-484 | for every path shorter than 256 bytes the corrected and the as-written Announce are the same message |
| Session.AnnounceOverWire | src/structs.rs:474-486 | a client receiving the Announce frame with expected command 3 recovers exactly the song path and leaves the following bytes |
| Session.AcceptClient | src/structs.rs:420-433 | the session starts if and only if the first frame is a Hello; its port becomes the client's port, no station is selected yet, and the reply decodes to Welcome carrying the song-path count modulo 2^16 |
| Session.HelloFrame | src/structs.rs:242-246 | the client's Hello frame decodes to Hello carrying its UDP port |
| Session.AwaitWelcome | src/structs.rs:248-262 | the client proceeds if and only if the reply frame is a Welcome, and learns its big-endian u16 as the station count |
| Session.Handshake | src/structs.rs:420-433 | end to end, the server learns exactly the client's UDP port and the client learns the song-path count modulo 2^16 |
| Session.FrameOf | src/structs.rs:86-106 | a built message is sent as a frame that decodes back to it, and a message that could not be built sends nothing and passes its error on |
| Session.OnSetStation | src/structs.rs:443-486 | one SetStation fails with `NoSuchStation` exactly for a station number with no station; otherwise the lists are updated as `Subscribe` states and the session remembers the new station; the Announce frame exists exactly when the song path has at most 256 bytes (a longer one is `PathTooLong`), and it then decodes to an Announce whose buffer starts with the path and whose length byte is the path length modulo 256, so the receiver recovers the path whenever it is shorter than 256 bytes |
| Session.OnSetStationCorrected | src/structs.rs:443-486 | corrected: the same list update and session state, with an Announce that exists exactly when the song path is shorter than 256 bytes and then names exactly that path |
| Session.OnSetStationAgreesBelowLimit | src/structs.rs:474-484 | the corrected and the as-written SetStation step give the same result whenever the chosen song path is shorter than 256 bytes or the station does not exist |
| Session.OnSetStationKeepsSubscribed | src/structs.rs:450-468 | if the client's port is in exactly the list of its current station, once, then after any valid SetStation it is in exactly the list of the new station, once, and in no other, whether or not the Announce can be built |
| Session.Selections | src/structs.rs:441-492 | a run of SetStation messages keeps the number of stations and the client's port, sends at most one Announce per message, and can stop only on a missing station or a song path too long for the buffer |
| Session.SelectionsSucceed | src/structs.rs:441-487 | a run of SetStation messages is handled completely if and only if every station number names a station whose song path has at most 256 bytes, and a completed run sends exactly as many Announce frames as there were messages |
| Session.SelectionsAnnounce | src/structs.rs:474-486 | the k-th Announce a run sends answers the k-th SetStation: its station exists and the frame is the source's Announce of that station's song path; the frames stop where the run stops |
| Session.SelectionsKeepOthers | src/structs.rs:450-468 | after any run every song path is unchanged and every other port occurs in every list exactly as often as before |
| Session.SelectionsEndOnLast | src/structs.rs:467-468 | a run that handles every choice leaves the session on the last station chosen |
| Session.SelectionsKeepSubscribed | src/structs.rs:441-487 | after any run of SetStation messages, including one that stops at a missing station or a panicking Announce, the client's port is in exactly one list, once, and the number of stations is unchanged; a run that completes ends on the last station chosen |
| Playback.ReadChunk | src/structs.rs:630-640 | the chunk is 1024 bytes: the file's bytes from the cursor on, then zeros where the file has run out |
| Playback.NextPos | src/structs.rs:630-640 | the cursor moves a full chunk ahead if and only if one more chunk fits in the file, and otherwise returns to 0; it never passes the end of the file and stays a multiple of 1024 |
| Playback.FanOut | src/structs.rs:653-657 | one datagram per listed port, in list order, each carrying the same chunk |
| Playback.FanOutDestinations | src/structs.rs:653-657 | the destination sequence of the fan-out equals the port list, duplicates included |
| Playback.PlayChunk | src/structs.rs:611-659 | one tick sends the chunk read at the old cursor to exactly the listed ports, or to none if the socket does not bind; the cursor advances either way, whoever is listening |
| Playback.Play | src/structs.rs:563-576 | `ticks` iterations of the loop read exactly one chunk per tick; which chunks and where the cursor ends are stated by `PlayWithinPass`, `PlayAppend` and `CursorAfter` |
| Playback.PlayWithinPass | src/structs.rs:630-640 | n ticks from chunk-aligned cursor i*1024, within one pass, read the consecutive 1024-byte slices of the zero-padded file and end at (i+n)*1024, or at 0 when the pass completes |
| Playback.OnePass | src/structs.rs:630-640 | one pass from the start of the file sends the whole file followed by 1 to 1024 zero bytes and leaves the cursor at 0 |
| Playback.ExactChunks | src/structs.rs:630-640 | a file of exactly k*1024 bytes visits cursors 0, 1024, ..., k*1024 and is back at 0 after k+1 ticks; the last tick sends only zeros |
| Playback.PlayAppend | src/structs.rs:563-576 | a+b ticks of the loop are a ticks followed by b ticks from the cursor those left |
| Playback.CursorAfter | src/structs.rs:563-576 | after q whole passes and r more ticks the cursor is at r*1024, so the station's position depends only on elapsed ticks, listeners or not |

## Left out

- The TCP and UDP I/O itself is not modelled: `TcpStream` read, write and flush, `UdpSocket` bind and connect, and `File` open and seek. The model keeps only the bytes and positions these act on. A `Datagram` records only the destination port: the source connects to `server_name` at that port (line 655), the host the station's socket binds at line 642, never the client's own address, and the model drops that host.
- `Mutex`/`RwLock` locking and the `tokio::select!` loops in `interact_with_server` and `handle_client` are concurrency. The model treats each registry update as one atomic step. The source does not: it takes the new station's write lock to push the port (lines 454 and 457) and the old station's write lock to remove it (line 463) separately, so a broadcast tick in between can find the port in both lists and send it the chunks of both stations.
- `receive_and_expect2`, `receive_and_expect3`, `wait_for_announce` and `wait_for_announce2` are left out. They are peek-based busy loops whose behaviour depends on the socket. The server's SetStation arrives through one of them, so `OnSetStation` takes the station number directly.
- ReceiveManyEncodeAll: `Message::send` writes the frame with one `write` call, not `write_all` (line 108), and discards the result. A short write would drop the tail of a frame and shift every later frame on the stream. The model assumes each frame is written whole, and the lemma states the stream that results from that.
- The InvalidCommand branch of `handle_client` (lines 488-490) is left out. It takes one 258-byte frame with command 4 through `receive_and_expect3` (line 211) and prints a line, changing no station list and no session state. It shares the peek-based reading of `receive_and_expect3` described above.
- `play_all_loops` task spawning, the `thread::sleep` pacing of 62500 microseconds, and the `f64` progress printing in `play_song_loop` are left out. They are task creation, timing and floating point.
- The stdin-driven `get_station_number`, `get_station_number2` and `get_station_number3` are left out. They are console input.
- `Station::new` checks that the song file exists. That is a filesystem check and is left out.
- `src/bin/snowcast_control.rs` and `src/bin/snowcast_server.rs` are left out. They parse arguments and set up sockets, and they call functions that `src/structs.rs` does not define.
- ReadChunk: on a short read, `read_exact` documents the buffer contents as unspecified. The model takes the standard library's behaviour: the bytes read stay in the buffer and the rest remains zero.
- FanOut: the result of each `connect` and `send` is ignored by the source. The model records the attempted sends only, not whether each one was delivered.
- NextPos: the source's cursor is a `u64`. Since the cursor never passes the file length, `pos + 1024` cannot overflow in practice, and the model uses unbounded naturals.
- OnSetStationKeepsSubscribed: this covers one client's port. Another session announcing the same UDP port shares its entries, and the source does nothing to keep them apart.

## Findings

| source | as written | input that shows it | evidently intended | confidence | as-written member | corrected member |
|---|---|---|---|---|---|---|
| src/structs.rs:474-484 | the Announce length byte is `song_path.len() as u8`, while all path bytes are copied into the 256-byte buffer | a song path of exactly 256 bytes: the length byte wraps to 0 and the receiver's name slice is empty | the length byte equals the path's byte length, so a path of 256 bytes or more cannot be announced | medium, not executed | Session.AnnounceAsWrittenLosesLongName | Session.Announce |

=== FILE: base.dfy ===
/** Shared vocabulary of the snowcast model: fixed-width integers, the
    failure-compatible wrappers that stand in for `std::process::exit`,
    panics and I/O errors, and small sequence helpers. */
module Base {

  /** Rust's `u8`: one byte of a frame or of an audio file. */
  type u8 = x: int | 0 <= x < 0x100

  /** Rust's `u16`: UDP ports, station numbers and station counts. */
  type u16 = x: int | 0 <= x < 0x1_0000

  /** A client's UDP port as stored in a station's listener list. */
  type Port = u16

  datatype Option<+T> = None | Some(value: T)

  /** Every way the modelled code stops short of its normal result. In the
      source most of these end the process (`exit(1)`) or the task (a
      panic); here they end only the computation that raised them. */
  datatype Error =
    | UnknownCommand(command: u8)                   // exit(1): tag outside 0..4
    | UnexpectedCommand(expected: u8, got: u8)      // exit(1) in receive_and_expect
    | ShortRead(available: nat)                     // read_exact hit end of stream
    | NoSuchStation(station: u16)                   // `unwrap()` of `Vec::get` panics
    | PathTooLong(length: nat)                      // song path does not fit the frame

  datatype Result<+T> = Success(value: T) | Failure(error: Error) {
    predicate IsFailure() {
      Failure?
    }

    function PropagateFailure<U>(): Result<U>
      requires Failure?
    {
      Failure(error)
    }

    function Extract(): T
      requires Success?
    {
      value
    }
  }

  /** `n` zero bytes: the initial contents of `[0_u8; n]`. */
  function Zeros(n: nat): (z: seq<u8>)
    ensures |z| == n
    ensures forall i :: 0 <= i < n ==> z[i] == 0
  {
    seq(n, _ => 0)
  }

  function Min(a: int, b: int): int {
    if a <= b then a else b
  }
}

=== FILE: codec.dfy ===
/** The control-channel wire codec of `src/structs.rs`: `Message::new`, the
    frame built by `Message::send`, the parse done by `Message::receive`
    and the tag filter of `Message::receive_and_expect`.

    Every frame is exactly 258 bytes. Byte 0 is the command tag. For tags
    0..2 (Hello, SetStation, Welcome) bytes 1..2 hold a big-endian `u16`
    and the rest is zero padding; for tags 3..4 (Announce, InvalidCommand)
    byte 1 is a declared length and bytes 2..257 are the whole 256-byte
    text buffer, whatever the declared length. */
module Codec {
  import opened Base

  const FrameSize: nat := 258
  const TextSize: nat := 256

  const HelloCmd: u8 := 0
  const SetStationCmd: u8 := 1
  const WelcomeCmd: u8 := 2
  const AnnounceCmd: u8 := 3
  const InvalidCommandCmd: u8 := 4

  /** One control frame, `[u8; 258]`. */
  type Frame = s: seq<u8> | |s| == FrameSize witness Zeros(FrameSize)

  /** The text buffer of a Text message, `[u8; 256]`. */
  type TextBuffer = s: seq<u8> | |s| == TextSize witness Zeros(TextSize)

  datatype MessageType =
    | Data(data: u16)
    | Text(length: u8, text: TextBuffer)

  datatype Message = Message(command: u8, messageType: MessageType)

  predicate IsDataCommand(c: u8) {
    c <= 2
  }

  predicate IsTextCommand(c: u8) {
    c == 3 || c == 4
  }

  /** The shape `Message::new` guarantees: tags 0..2 carry Data, tags 3..4
      carry Text, and no other tag exists. */
  predicate WellFormed(m: Message) {
    || (IsDataCommand(m.command) && m.messageType.Data?)
    || (IsTextCommand(m.command) && m.messageType.Text?)
  }

  /** Big-endian high and low bytes of a `u16` (`to_be_bytes`). */
  function HighByte(d: u16): u8 {
    d / 256
  }

  function LowByte(d: u16): u8 {
    d % 256
  }

  /** `NetworkEndian::read_u16` on two bytes. */
  function ReadU16(hi: u8, lo: u8): (d: u16)
    ensures d / 256 == hi as int && d % 256 == lo as int
  {
    hi as int * 256 + lo as int
  }

  /** `Message::new`: sorts a command into Data or Text, ignoring the
      fields the other shape would use, and rejects every other command. */
  function New(command: u8, data: u16, length: u8, text: TextBuffer): (r: Result<Message>)
    ensures r.Success? <==> command <= 4
    ensures r.Success? ==> WellFormed(r.value) && r.value.command == command
    ensures r.Success? && IsDataCommand(command) ==> r.value.messageType.data == data
    ensures r.Success? && IsTextCommand(command) ==> r.value.messageType == Text(length, text)
    ensures r.Failure? ==> r.error == UnknownCommand(command)
  {
    if IsDataCommand(command) then Success(Message(command, Data(data)))
    else if IsTextCommand(command) then Success(Message(command, Text(length, text)))
    else Failure(UnknownCommand(command))
  }

  /** The frame `Message::send` writes to the stream. */
  function Encode(m: Message): (f: Frame)
    ensures f[0] == m.command
    ensures m.messageType.Data? ==>
      ReadU16(f[1], f[2]) == m.messageType.data && forall i :: 3 <= i < FrameSize ==> f[i] == 0
    ensures m.messageType.Text? ==>
      f[1] == m.messageType.length && f[2..] == m.messageType.text
  {
    match m.messageType
    case Data(d) => [m.command, HighByte(d), LowByte(d)] + Zeros(FrameSize - 3)
    case Text(length, text) => [m.command, length] + text
  }

  /** The parse `Message::receive` does once `read_exact` has filled the
      buffer. */
  function Decode(f: Frame): (r: Result<Message>)
    ensures r.Success? <==> f[0] <= 4
    ensures r.Success? ==> WellFormed(r.value) && r.value.command == f[0]
    ensures r.Failure? ==> r.error == UnknownCommand(f[0])
  {
    if IsDataCommand(f[0]) then New(f[0], ReadU16(f[1], f[2]), 0, Zeros(TextSize))
    else if IsTextCommand(f[0]) then New(f[0], 0, f[1], f[2..])
    else Failure(UnknownCommand(f[0]))
  }

  /** A frame as `send` produces it: padding after a Data payload is zero. */
  predicate Canonical(f: Frame) {
    IsDataCommand(f[0]) ==> forall i :: 3 <= i < FrameSize ==> f[i] == 0
  }

  /** Decoding undoes encoding for every message `Message::new` can build. */
  lemma DecodeEncode(m: Message)
    requires WellFormed(m)
    ensures Decode(Encode(m)) == Success(m)
  {
  }

  /** Encoding undoes decoding exactly when the frame's Data padding is
      zero: the decoder never looks at bytes 3..257 of a Data frame. */
  lemma EncodeDecode(f: Frame)
    requires f[0] <= 4
    ensures Decode(f).Success?
    ensures Encode(Decode(f).value) == f <==> Canonical(f)
  {
  }

  /** Padding bytes 3..257 never affect the decoded Data message. */
  lemma PaddingIgnored(f: Frame, g: Frame)
    requires IsDataCommand(f[0]) && f[..3] == g[..3]
    ensures Decode(f) == Decode(g)
  {
  }

  /** `Message::receive` on a byte stream: `read_exact` takes one frame's
      worth of bytes or fails if the stream ends first; the unread rest of
      the stream is returned alongside the message. */
  function Receive(input: seq<u8>): (r: Result<(Message, seq<u8>)>)
    ensures r.Success? <==> |input| >= FrameSize && input[0] <= 4
    ensures r.Success? ==>
      && WellFormed(r.value.0)
      && r.value.0.command == input[0]
      && r.value.1 == input[FrameSize..]
    ensures r.Success? ==> Success(r.value.0) == Decode(input[..FrameSize])
    ensures |input| < FrameSize ==> r == Failure(ShortRead(|input|))
    ensures |input| >= FrameSize && input[0] > 4 ==> r == Failure(UnknownCommand(input[0]))
  {
    if |input| < FrameSize then Failure(ShortRead(|input|))
    else
      var m :- Decode(input[..FrameSize]);
      Success((m, input[FrameSize..]))
  }

  /** `Message::receive_and_expect`: the next message, only if it carries
      the expected command; any other command ends the exchange. */
  function ReceiveAndExpect(input: seq<u8>, expected: u8): (r: Result<(Message, seq<u8>)>)
    ensures r.Success? <==> |input| >= FrameSize && input[0] == expected && expected <= 4
    ensures r.Success? ==>
      && WellFormed(r.value.0)
      && r.value.0.command == expected
      && r.value.1 == input[FrameSize..]
    ensures r.Success? ==> r == Receive(input)
    ensures Receive(input).Failure? ==> r == Receive(input)
    ensures |input| >= FrameSize && input[0] <= 4 && input[0] != expected ==>
      r == Failure(UnexpectedCommand(expected, input[0]))
  {
    var (m, rest) :- Receive(input);
    if m.command == expected then Success((m, rest))
    else Failure(UnexpectedCommand(expected, m.command))
  }

  /** A stream that begins with the frame of `m` yields `m` back, under the
      expectation of its own command, and leaves the following bytes. */
  lemma ReceiveEncoded(m: Message, rest: seq<u8>)
    requires WellFormed(m)
    ensures Receive(Encode(m) + rest) == Success((m, rest))
    ensures ReceiveAndExpect(Encode(m) + rest, m.command) == Success((m, rest))
  {
  }

  /** The bytes of several messages sent back to back on one connection. */
  function EncodeAll(ms: seq<Message>): (bytes: seq<u8>)
    ensures |bytes| == |ms| * FrameSize
    ensures forall i :: 0 <= i < |ms| ==> bytes[i * FrameSize..(i + 1) * FrameSize] == Encode(ms[i])
  {
    if |ms| == 0 then []
    else
      var head := Encode(ms[0]);
      var tail := EncodeAll(ms[1..]);
      assert forall i :: 1 <= i < |ms| ==>
        (head + tail)[i * FrameSize..(i + 1) * FrameSize] == tail[(i - 1) * FrameSize..i * FrameSize];
      head + tail
  }

  /** `n` successive calls of `Message::receive` on one stream. */
  function ReceiveMany(input: seq<u8>, n: nat): (r: Result<(seq<Message>, seq<u8>)>)
    ensures |input| < n * FrameSize ==> r.Failure?
    ensures r.Success? ==>
      && |r.value.0| == n
      && (forall i :: 0 <= i < |r.value.0| ==> WellFormed(r.value.0[i]))
      && r.value.1 == input[n * FrameSize..]
    decreases n
  {
    if n == 0 then Success(([], input))
    else
      var (m, rest) :- Receive(input);
      var (ms, rest') :- ReceiveMany(rest, n - 1);
      Success(([m] + ms, rest'))
  }

  /** Dropping the first frame moves every later slot one place down. */
  lemma SlotShift(input: seq<u8>, i: nat)
    requires 1 <= i && (i + 1) * FrameSize <= |input|
    ensures input[FrameSize..][(i - 1) * FrameSize] == input[i * FrameSize]
    ensures input[FrameSize..][(i - 1) * FrameSize..i * FrameSize] == input[i * FrameSize..(i + 1) * FrameSize]
  {
    var lo, hi := (i - 1) * FrameSize, i * FrameSize;
    assert lo + FrameSize == hi && hi + FrameSize == (i + 1) * FrameSize;
    var rest := input[FrameSize..];
    assert forall k :: 0 <= k < FrameSize ==> rest[lo..hi][k] == input[hi..hi + FrameSize][k];
  }

  /** `n` receives succeed exactly when the stream holds `n` whole frames
      whose tags are all at most 4. */
  lemma {:induction false} ReceiveManySucceeds(input: seq<u8>, n: nat)
    ensures ReceiveMany(input, n).Success? <==>
      |input| >= n * FrameSize && forall i :: 0 <= i < n ==> input[i * FrameSize] <= 4
    decreases n
  {
    if n > 0 && |input| >= n * FrameSize {
      var rest := input[FrameSize..];
      var r := ReceiveMany(input, n);
      assert |rest| >= (n - 1) * FrameSize;
      ReceiveManySucceeds(rest, n - 1);
      if r.Success? {
        assert input[0] <= 4 && ReceiveMany(rest, n - 1).Success?;
        forall i | 0 <= i < n
          ensures input[i * FrameSize] <= 4
        {
          if i > 0 {
            SlotShift(input, i);
            assert rest[(i - 1) * FrameSize] <= 4;
          }
        }
      }
      if forall i :: 0 <= i < n ==> input[i * FrameSize] <= 4 {
        assert input[0 * FrameSize] <= 4;
        forall i | 0 <= i < n - 1
          ensures rest[i * FrameSize] <= 4
        {
          SlotShift(input, i + 1);
          assert input[(i + 1) * FrameSize] <= 4;
        }
        assert Receive(input).Success?;
        assert ReceiveMany(rest, n - 1).Success?;
      }
    }
  }

  /** When `n` receives succeed, message `i` is the decode of the `i`-th
      258-byte slot of the stream. */
  lemma {:induction false} ReceiveManyDecodes(input: seq<u8>, n: nat)
    ensures ReceiveMany(input, n).Success? ==>
      forall i :: 0 <= i < n ==>
        Success(ReceiveMany(input, n).value.0[i]) == Decode(input[i * FrameSize..(i + 1) * FrameSize])
    decreases n
  {
    var r := ReceiveMany(input, n);
    if n > 0 && r.Success? {
      var rest := input[FrameSize..];
      var tail := ReceiveMany(rest, n - 1);
      assert Receive(input).Success? && tail.Success?;
      ReceiveManyDecodes(rest, n - 1);
      assert r.value.0 == [Receive(input).value.0] + tail.value.0;
      forall i | 1 <= i < n
        ensures Success(r.value.0[i]) == Decode(input[i * FrameSize..(i + 1) * FrameSize])
      {
        assert r.value.0[i] == tail.value.0[i - 1];
        SlotShift(input, i);
      }
    }
  }

  /** Frames are received in the order they were sent, and each one decodes
      to the message that produced it. */
  lemma {:induction false} ReceiveManyEncodeAll(ms: seq<Message>, rest: seq<u8>)
    requires forall i :: 0 <= i < |ms| ==> WellFormed(ms[i])
    ensures ReceiveMany(EncodeAll(ms) + rest, |ms|) == Success((ms, rest))
  {
    var n := |ms|;
    var input := EncodeAll(ms) + rest;
    forall i | 0 <= i < n
      ensures input[i * FrameSize..(i + 1) * FrameSize] == Encode(ms[i])
    {
      assert input[i * FrameSize..(i + 1) * FrameSize] == EncodeAll(ms)[i * FrameSize..(i + 1) * FrameSize];
    }
    forall i | 0 <= i < n
      ensures input[i * FrameSize] <= 4
    {
      assert input[i * FrameSize] == Encode(ms[i])[0] == ms[i].command;
    }
    ReceiveManySucceeds(input, n);
    ReceiveManyDecodes(input, n);
    var r := ReceiveMany(input, n);
    forall i | 0 <= i < n
      ensures r.value.0[i] == ms[i]
    {
      DecodeEncode(ms[i]);
    }
    assert r.value.0 == ms;
    assert r.value.1 == input[n * FrameSize..] == rest;
  }
}

=== FILE: playback.dfy ===
/** The per-station broadcast step of `src/structs.rs` (`play_song_chunk`,
    driven forever by `play_song_loop`): read 1024 bytes of the song at the
    file cursor, rewind to the start when the read would pass the end of
    the file, and send the chunk to every UDP port subscribed to the
    station, in list order.

    The cursor rewinds only when `pos + 1024 > len`. A cursor that lands
    exactly on the end of the file therefore takes one more tick, which
    reads nothing and sends an all-zero chunk, before it returns to 0. */
module Playback {
  import opened Base

  /** `BUF_LEN`: bytes read and sent per tick. */
  const ChunkSize: nat := 1024

  /** One UDP datagram sent by the station: destination port and bytes. */
  datatype Datagram = Datagram(port: Port, payload: seq<u8>)

  /** What one call of `play_song_chunk` does: the chunk it read, the
      cursor it leaves behind, and the datagrams it sends. */
  datatype TickResult = TickResult(chunk: seq<u8>, next: nat, sent: seq<Datagram>)

  /** `read_exact` into a zeroed 1024-byte buffer at cursor `pos`: the bytes
      the file still has, and zeros where it has run out. */
  function ReadChunk(audio: seq<u8>, pos: nat): (chunk: seq<u8>)
    ensures |chunk| == ChunkSize
    ensures forall k :: 0 <= k < ChunkSize ==>
      chunk[k] == if pos + k < |audio| then audio[pos + k] else 0
  {
    if pos >= |audio| then Zeros(ChunkSize)
    else
      var end := Min(pos + ChunkSize, |audio|);
      audio[pos..end] + Zeros(ChunkSize - (end - pos))
  }

  /** The cursor after one tick: a full chunk ahead when one more fits in
      the file, otherwise back at the start. It never passes the end of
      the file and stays chunk-aligned. */
  function NextPos(pos: nat, fileLen: nat): (next: nat)
    ensures next <= fileLen
    ensures next == 0 || next == pos + ChunkSize
    ensures next == pos + ChunkSize <==> pos + ChunkSize <= fileLen
    ensures pos % ChunkSize == 0 ==> next % ChunkSize == 0
  {
    if pos + ChunkSize > fileLen then 0 else pos + ChunkSize
  }

  /** The loop at lines 653-657: one send per listed port, in list order,
      each carrying the same chunk. A failed send is ignored and does not
      stop the remaining ones. */
  function FanOut(ports: seq<Port>, chunk: seq<u8>): (sent: seq<Datagram>)
    ensures |sent| == |ports|
    ensures forall i :: 0 <= i < |sent| ==> sent[i].port == ports[i] && sent[i].payload == chunk
  {
    if |ports| == 0 then []
    else [Datagram(ports[0], chunk)] + FanOut(ports[1..], chunk)
  }

  /** The destinations of a sequence of datagrams, in sending order. */
  function Destinations(sent: seq<Datagram>): (ports: seq<Port>)
    ensures |ports| == |sent|
    ensures forall i :: 0 <= i < |sent| ==> ports[i] == sent[i].port
  {
    if |sent| == 0 then [] else [sent[0].port] + Destinations(sent[1..])
  }

  /** The fan-out reaches exactly the listed ports, in list order,
      duplicates included. */
  lemma FanOutDestinations(ports: seq<Port>, chunk: seq<u8>)
    ensures Destinations(FanOut(ports, chunk)) == ports
  {
  }

  /** One call of `play_song_chunk`: the cursor moves (line 633) before the
      socket is bound (line 642); if binding fails nothing is sent, but the
      cursor has still advanced. */
  function PlayChunk(audio: seq<u8>, pos: nat, ports: seq<Port>, bound: bool): (t: TickResult)
    ensures t.chunk == ReadChunk(audio, pos)
    ensures t.next == NextPos(pos, |audio|)
    ensures bound ==> Destinations(t.sent) == ports
    ensures !bound ==> t.sent == []
    ensures forall i :: 0 <= i < |t.sent| ==> t.sent[i].payload == ReadChunk(audio, pos)
  {
    var chunk := ReadChunk(audio, pos);
    var next := NextPos(pos, |audio|);
    FanOutDestinations(ports, chunk);
    TickResult(chunk, next, if bound then FanOut(ports, chunk) else [])
  }

  /** `ticks` iterations of `play_song_loop` from cursor `pos`: the chunks
      read, in order, and the final cursor. */
  function Play(audio: seq<u8>, pos: nat, ticks: nat): (r: (seq<seq<u8>>, nat))
    ensures |r.0| == ticks
    decreases ticks
  {
    if ticks == 0 then ([], pos)
    else
      var (chunks, final) := Play(audio, NextPos(pos, |audio|), ticks - 1);
      ([ReadChunk(audio, pos)] + chunks, final)
  }

  /** Ticks per pass over a file: one per full chunk, plus the tick that
      reads the tail (possibly empty) and rewinds. */
  function Period(fileLen: nat): nat {
    fileLen / ChunkSize + 1
  }

  /** The file followed by the zeros that fill the last tick's buffer. */
  function Padded(audio: seq<u8>): seq<u8> {
    audio + Zeros(Period(|audio|) * ChunkSize - |audio|)
  }

  function Flatten(chunks: seq<seq<u8>>): seq<u8> {
    if |chunks| == 0 then [] else chunks[0] + Flatten(chunks[1..])
  }

  lemma PeriodBounds(fileLen: nat)
    ensures (Period(fileLen) - 1) * ChunkSize <= fileLen < Period(fileLen) * ChunkSize
    ensures 1 <= Period(fileLen) * ChunkSize - fileLen <= ChunkSize
  {
  }

  /** The chunk read at an aligned cursor inside the file is the matching
      slice of the padded file. */
  lemma ChunkOfPadded(audio: seq<u8>, i: nat)
    requires i < Period(|audio|)
    ensures |Padded(audio)| == Period(|audio|) * ChunkSize
    ensures ReadChunk(audio, i * ChunkSize) == Padded(audio)[i * ChunkSize..(i + 1) * ChunkSize]
  {
  }

  /** From aligned cursor `i * 1024`, `n` ticks that stay within one pass
      read consecutive slices of the padded file and end one chunk further
      per tick, or back at 0 once the pass is complete. */
  lemma {:induction false} PlayWithinPass(audio: seq<u8>, i: nat, n: nat)
    requires i < Period(|audio|) && i + n <= Period(|audio|)
    ensures |Padded(audio)| == Period(|audio|) * ChunkSize
    ensures Flatten(Play(audio, i * ChunkSize, n).0) == Padded(audio)[i * ChunkSize..(i + n) * ChunkSize]
    ensures Play(audio, i * ChunkSize, n).1 == if i + n == Period(|audio|) then 0 else (i + n) * ChunkSize
    decreases n
  {
    PeriodBounds(|audio|);
    ChunkOfPadded(audio, i);
    var p := Padded(audio);
    var pos := i * ChunkSize;
    if n > 0 {
      var r := Play(audio, pos, n);
      var chunk := ReadChunk(audio, pos);
      var next := NextPos(pos, |audio|);
      var tail := Play(audio, next, n - 1);
      assert r.0 == [chunk] + tail.0 && r.1 == tail.1;
      assert ([chunk] + tail.0)[1..] == tail.0;
      assert Flatten(r.0) == chunk + Flatten(tail.0);
      if i + 1 < Period(|audio|) {
        assert next == (i + 1) * ChunkSize;
        PlayWithinPass(audio, i + 1, n - 1);
      } else {
        assert next == 0 && n == 1;
        assert tail == ([], 0);
      }
      var mid, end := (i + 1) * ChunkSize, (i + n) * ChunkSize;
      assert pos <= mid <= end <= |p|;
      assert p[pos..end] == p[pos..mid] + p[mid..end];
    }
  }

  /** One pass of the broadcast loop from the start of the file sends the
      whole file followed by 1 to 1024 zero bytes, then the cursor is back
      at 0. */
  lemma OnePass(audio: seq<u8>)
    ensures Flatten(Play(audio, 0, Period(|audio|)).0) == audio + Zeros(Period(|audio|) * ChunkSize - |audio|)
    ensures Play(audio, 0, Period(|audio|)).1 == 0
    ensures 1 <= Period(|audio|) * ChunkSize - |audio| <= ChunkSize
  {
    var period := Period(|audio|);
    PeriodBounds(|audio|);
    PlayWithinPass(audio, 0, period);
    assert 0 * ChunkSize == 0 && (0 + period) * ChunkSize == period * ChunkSize;
    assert Padded(audio)[0..period * ChunkSize] == Padded(audio);
  }

  /** A file of exactly `k` chunks visits the cursors 0, 1024, ..., k*1024
      (k + 1 of them) and is back at 0 after k + 1 ticks; the last tick of
      each pass reads past the end and sends an all-zero chunk. */
  lemma ExactChunks(audio: seq<u8>, k: nat)
    requires |audio| == k * ChunkSize
    ensures Period(|audio|) == k + 1
    ensures forall j :: 0 <= j <= k ==> Play(audio, 0, j).1 == j * ChunkSize
    ensures Play(audio, 0, k + 1).1 == 0
    ensures Play(audio, 0, k + 1).0[k] == Zeros(ChunkSize)
  {
    assert Period(|audio|) == k + 1;
    forall j | 0 <= j <= k
      ensures Play(audio, 0, j).1 == j * ChunkSize
    {
      PlayWithinPass(audio, 0, j);
    }
    PlayWithinPass(audio, 0, k + 1);
    PlayWithinPass(audio, 0, k);
    var r := Play(audio, 0, k + 1);
    PlayAppend(audio, 0, k, 1);
    assert r.0[k] == ReadChunk(audio, k * ChunkSize);
  }

  /** Ticks compose: `a + b` ticks are `a` ticks followed by `b` more from
      where those left the cursor. */
  lemma {:induction false} PlayAppend(audio: seq<u8>, pos: nat, a: nat, b: nat)
    ensures Play(audio, pos, a + b).1 == Play(audio, Play(audio, pos, a).1, b).1
    ensures Play(audio, pos, a + b).0 == Play(audio, pos, a).0 + Play(audio, Play(audio, pos, a).1, b).0
    decreases a
  {
    if a > 0 {
      PlayAppend(audio, NextPos(pos, |audio|), a - 1, b);
    }
  }

  /** The cursor depends only on how many ticks have passed since the
      station started, whether anyone listened or not: after `q` whole
      passes and `r` more ticks it is at chunk `r`. */
  lemma {:induction false} CursorAfter(audio: seq<u8>, q: nat, r: nat)
    requires r < Period(|audio|)
    ensures Play(audio, 0, q * Period(|audio|) + r).1 == r * ChunkSize
    decreases q
  {
    var period := Period(|audio|);
    if q == 0 {
      PlayWithinPass(audio, 0, r);
    } else {
      var later := (q - 1) * period + r;
      PassesSplit(q, period, r);
      PlayWithinPass(audio, 0, period);
      PlayAppend(audio, 0, period, later);
      CursorAfter(audio, q - 1, r);
    }
  }

  /** `q` passes are one pass followed by `q - 1` more. */
  lemma PassesSplit(q: nat, period: nat, r: nat)
    requires q > 0
    ensures q * period + r == period + ((q - 1) * period + r)
  {
  }
}

=== FILE: session.dfy ===
/** The pure logic of the server's per-connection session
    (`handle_client` in `src/structs.rs`) and of the client's handshake
    (`interact_with_server`).

    The server keeps one list of UDP ports per station. A client's
    SetStation appends its port to the chosen station's list and, when it
    switches away from another station, removes every occurrence of its
    port from that station's list; re-selecting the current station leaves
    every list alone. Each SetStation is answered with an Announce frame
    naming the station's song. */
module Session {
  import opened Base
  import opened Codec

  /** A station: the bytes of its song path and the UDP ports of its
      listeners, in the order they subscribed (`Vec<u16>`). */
  datatype Station = Station(songPath: seq<u8>, ports: seq<Port>)

  /** What one `handle_client` invocation remembers: the client's UDP port
      from Hello and the last station it selected (`prev_station_num_opt`). */
  datatype ClientState = ClientState(port: Port, current: Option<u16>)

  /** The outcome of one SetStation: the registry after the update, the
      session state after it, and the Announce frame to send back (which
      can fail after the registry has already been updated, as in the
      source). */
  datatype SetStationStep = SetStationStep(stations: seq<Station>, state: ClientState, announce: Result<Frame>)

  /** `ports.retain(|&x| x != port)`: drop every occurrence of `port` and
      keep the other ports in their order. */
  function Without(ports: seq<Port>, port: Port): (r: seq<Port>)
    ensures multiset(r) == multiset(ports)[port := 0]
    ensures port !in ports ==> r == ports
  {
    if |ports| == 0 then []
    else
      assert ports == [ports[0]] + ports[1..];
      if ports[0] == port then Without(ports[1..], port)
      else [ports[0]] + Without(ports[1..], port)
  }

  /** `retain` works element by element, so it keeps relative order. */
  lemma {:induction false} WithoutConcat(a: seq<Port>, b: seq<Port>, port: Port)
    ensures Without(a + b, port) == Without(a, port) + Without(b, port)
    decreases |a|
  {
    if |a| > 0 {
      var head, tail := a[0], a[1..];
      assert (a + b)[0] == head;
      assert (a + b)[1..] == tail + b;
      WithoutConcat(tail, b, port);
      if head == port {
        assert Without(a + b, port) == Without(tail + b, port);
        assert Without(a, port) == Without(tail, port);
      } else {
        assert Without(a + b, port) == [head] + Without(tail + b, port);
        assert Without(a, port) == [head] + Without(tail, port);
      }
    } else {
      assert a + b == b;
    }
  }

  /** Whether a station index is usable by the client's current selection. */
  predicate CurrentInRange(stations: seq<Station>, state: ClientState) {
    state.current.Some? ==> state.current.value < |stations|
  }

  function AddPort(s: Station, port: Port): Station {
    s.(ports := s.ports + [port])
  }

  function RemovePort(s: Station, port: Port): Station {
    s.(ports := Without(s.ports, port))
  }

  /** The registry update of lines 450-468: the chosen station must exist
      (`get(..).unwrap()`); a first selection or a switch appends the port
      to the new station, a switch also clears it from the previous one,
      and re-selecting the current station changes nothing. */
  function Subscribe(stations: seq<Station>, current: Option<u16>, station: u16, port: Port): (r: Result<seq<Station>>)
    requires current.Some? ==> current.value < |stations|
    ensures r.Failure? <==> station >= |stations|
    ensures r.Failure? ==> r.error == NoSuchStation(station)
    ensures r.Success? ==> |r.value| == |stations|
    ensures r.Success? ==> forall i :: 0 <= i < |stations| ==> r.value[i].songPath == stations[i].songPath
    ensures r.Success? && current.None? ==>
      r.value[station].ports == stations[station].ports + [port]
    ensures r.Success? && current.Some? && current.value != station ==>
      && r.value[station].ports == stations[station].ports + [port]
      && r.value[current.value].ports == Without(stations[current.value].ports, port)
    ensures r.Success? && current == Some(station) ==> r.value == stations
    ensures r.Success? ==> forall i :: 0 <= i < |stations| && i != station && !(current.Some? && current.value == i) ==>
      r.value[i] == stations[i]
    ensures r.Success? ==> forall i, x :: 0 <= i < |stations| && x != port ==>
      multiset(r.value[i].ports)[x] == multiset(stations[i].ports)[x]
  {
    if station >= |stations| then Failure(NoSuchStation(station))
    else
      match current
      case None => Success(stations[station := AddPort(stations[station], port)])
      case Some(previous) =>
        if previous == station then Success(stations)
        else
          var added := stations[station := AddPort(stations[station], port)];
          Success(added[previous := RemovePort(added[previous], port)])
  }

  /** The Welcome reply of line 431: the station count, truncated by
      `len() as u16`. */
  function Welcome(songPathCount: nat): (m: Message)
    ensures WellFormed(m) && m.command == WelcomeCmd
    ensures songPathCount < 0x1_0000 ==> m.messageType.data == songPathCount
    ensures m.messageType.data == songPathCount % 0x1_0000
  {
    Message(WelcomeCmd, Data(songPathCount % 0x1_0000))
  }

  /** The song name a receiver recovers from a Text message: the first
      `length` bytes of the buffer. */
  function AnnouncedName(m: Message): seq<u8>
    requires m.messageType.Text?
  {
    m.messageType.text[..m.messageType.length]
  }

  /** The Announce of lines 474-484 as written: the path bytes are copied
      into a zeroed 256-byte buffer (a longer path indexes past its end and
      panics) and the length byte is `len() as u8`. */
  function AnnounceAsWritten(path: seq<u8>): (r: Result<Message>)
    ensures r.Success? <==> |path| <= TextSize
    ensures r.Success? ==>
      && WellFormed(r.value)
      && r.value.command == AnnounceCmd
      && r.value.messageType.length == |path| % 256
      && r.value.messageType.text[..|path|] == path
  {
    if |path| > TextSize then Failure(PathTooLong(|path|))
    else Success(Message(AnnounceCmd, Text(|path| % 256, path + Zeros(TextSize - |path|))))
  }

  /** A 256-byte path fits the buffer but its length byte wraps to 0, so
      the receiver recovers an empty song name. */
  lemma AnnounceAsWrittenLosesLongName(path: seq<u8>)
    requires |path| == TextSize
    ensures AnnounceAsWritten(path).Success?
    ensures AnnouncedName(AnnounceAsWritten(path).value) == []
    ensures AnnouncedName(AnnounceAsWritten(path).value) != path
  {
  }

  /** The Announce the session sends: a path of at most 255 bytes, whose
      length fits the length byte, zero-padded to the buffer; a longer path
      is refused. */
  function Announce(path: seq<u8>): (r: Result<Message>)
    ensures r.Success? <==> |path| < TextSize
    ensures r.Failure? ==> r.error == PathTooLong(|path|)
    ensures r.Success? ==>
      && WellFormed(r.value)
      && r.value.command == AnnounceCmd
      && AnnouncedName(r.value) == path
      && forall i :: |path| <= i < TextSize ==> r.value.messageType.text[i] == 0
  {
    if |path| >= TextSize then Failure(PathTooLong(|path|))
    else Success(Message(AnnounceCmd, Text(|path|, path + Zeros(TextSize - |path|))))
  }

  /** On every path whose length fits a byte the corrected Announce is the
      one the source builds. */
  lemma AnnounceAgreesBelowLimit(path: seq<u8>)
    requires |path| < TextSize
    ensures Announce(path) == AnnounceAsWritten(path)
  {
  }

  /** A client reading the Announce frame off the stream recovers exactly
      the station's song path. */
  lemma AnnounceOverWire(path: seq<u8>, rest: seq<u8>)
    requires |path| < TextSize
    ensures var r := ReceiveAndExpect(Encode(Announce(path).value) + rest, AnnounceCmd);
      r.Success? && AnnouncedName(r.value.0) == path && r.value.1 == rest
  {
  }

  /** Steps 1-3 of `handle_client`: read a Hello (any other command ends
      the session), remember its UDP port, and answer with Welcome. */
  function AcceptClient(input: seq<u8>, songPathCount: nat): (r: Result<(ClientState, Frame, seq<u8>)>)
    ensures r.Success? <==> |input| >= FrameSize && input[0] == HelloCmd
    ensures r.Success? ==>
      && r.value.0 == ClientState(ReadU16(input[1], input[2]), None)
      && Decode(r.value.1) == Success(Message(WelcomeCmd, Data(songPathCount % 0x1_0000)))
      && r.value.2 == input[FrameSize..]
  {
    var (hello, rest) :- ReceiveAndExpect(input, HelloCmd);
    DecodeEncode(Welcome(songPathCount));
    Success((ClientState(hello.messageType.data, None), Encode(Welcome(songPathCount)), rest))
  }

  /** Step 1 of `interact_with_server`: the Hello frame carrying the
      client's UDP port. */
  function HelloFrame(port: Port): (f: Frame)
    ensures Decode(f) == Success(Message(HelloCmd, Data(port)))
  {
    DecodeEncode(Message(HelloCmd, Data(port)));
    Encode(Message(HelloCmd, Data(port)))
  }

  /** Step 2 of `interact_with_server`: the reply must be a Welcome, whose
      payload is the server's station count. */
  function AwaitWelcome(input: seq<u8>): (r: Result<(u16, seq<u8>)>)
    ensures r.Success? <==> |input| >= FrameSize && input[0] == WelcomeCmd
    ensures r.Success? ==> r.value == (ReadU16(input[1], input[2]), input[FrameSize..])
  {
    var (welcome, rest) :- ReceiveAndExpect(input, WelcomeCmd);
    Success((welcome.messageType.data, rest))
  }

  /** The handshake end to end: the server learns the client's UDP port,
      and the client learns the number of song paths modulo 2^16. */
  lemma Handshake(port: Port, songPathCount: nat, clientRest: seq<u8>, serverRest: seq<u8>)
    ensures var accepted := AcceptClient(HelloFrame(port) + clientRest, songPathCount);
      && accepted.Success?
      && accepted.value.0 == ClientState(port, None)
      && accepted.value.2 == clientRest
      && AwaitWelcome(accepted.value.1 + serverRest) == Success((songPathCount % 0x1_0000, serverRest))
  {
  }

  /** The frame `Message::send` writes for a built message, or the error
      that stopped the message from being built. */
  function FrameOf(m: Result<Message>): (f: Result<Frame>)
    requires m.Success? ==> WellFormed(m.value)
    ensures f.Success? <==> m.Success?
    ensures m.Success? ==> Decode(f.value) == m
    ensures m.Failure? ==> f == Failure(m.error)
  {
    if m.Success? then DecodeEncode(m.value); Success(Encode(m.value))
    else Failure(m.error)
  }

  /** One SetStation handled by the server loop (lines 443-486): update the
      registry, move the session to the new station, and build the Announce
      as the source does. A path of exactly 256 bytes is announced with
      length byte 0; a longer path panics at line 481, after the registry
      has already been updated. */
  function OnSetStation(stations: seq<Station>, state: ClientState, station: u16): (r: Result<SetStationStep>)
    requires CurrentInRange(stations, state)
    ensures r.Failure? <==> station >= |stations|
    ensures r.Failure? ==> r.error == NoSuchStation(station)
    ensures r.Success? ==>
      && r.value.stations == Subscribe(stations, state.current, station, state.port).value
      && r.value.state == ClientState(state.port, Some(station))
      && (r.value.announce.Success? <==> |stations[station].songPath| <= TextSize)
      && (r.value.announce.Failure? ==>
            r.value.announce.error == PathTooLong(|stations[station].songPath|))
      && (r.value.announce.Success? ==>
            var m := Decode(r.value.announce.value);
            var path := stations[station].songPath;
            && m.Success? && m.value.command == AnnounceCmd && m.value.messageType.Text?
            && m.value.messageType.length == |path| % 256
            && m.value.messageType.text[..|path|] == path)
    ensures r.Success? && |stations[station].songPath| < TextSize ==>
      var m := Decode(r.value.announce.value);
      m.Success? && m.value.messageType.Text? && AnnouncedName(m.value) == stations[station].songPath
  {
    var updated :- Subscribe(stations, state.current, station, state.port);
    var frame := FrameOf(AnnounceAsWritten(stations[station].songPath));
    Success(SetStationStep(updated, ClientState(state.port, Some(station)), frame))
  }

  /** The SetStation step with the corrected Announce: the same registry
      update and session state, but a path of 256 bytes or more is refused
      instead of being announced under a wrapped length. */
  function OnSetStationCorrected(stations: seq<Station>, state: ClientState, station: u16): (r: Result<SetStationStep>)
    requires CurrentInRange(stations, state)
    ensures r.Failure? <==> station >= |stations|
    ensures r.Failure? ==> r.error == NoSuchStation(station)
    ensures r.Success? ==>
      && r.value.stations == Subscribe(stations, state.current, station, state.port).value
      && r.value.state == ClientState(state.port, Some(station))
      && (r.value.announce.Success? <==> |stations[station].songPath| < TextSize)
      && (r.value.announce.Success? ==>
            var m := Decode(r.value.announce.value);
            m.Success? && m.value.command == AnnounceCmd && m.value.messageType.Text?
            && AnnouncedName(m.value) == stations[station].songPath)
  {
    var updated :- Subscribe(stations, state.current, station, state.port);
    var frame := FrameOf(Announce(stations[station].songPath));
    Success(SetStationStep(updated, ClientState(state.port, Some(station)), frame))
  }

  /** The corrected step differs from the source's only on song paths of
      256 bytes or more. */
  lemma OnSetStationAgreesBelowLimit(stations: seq<Station>, state: ClientState, station: u16)
    requires CurrentInRange(stations, state)
    requires station < |stations| ==> |stations[station].songPath| < TextSize
    ensures OnSetStationCorrected(stations, state, station) == OnSetStation(stations, state, station)
  {
    if station < |stations| {
      AnnounceAgreesBelowLimit(stations[station].songPath);
    }
  }

  /** The client's port occurs exactly once in the list of the station it
      last selected and in no other list (nowhere before its first
      selection). */
  predicate Subscribed(stations: seq<Station>, state: ClientState) {
    && CurrentInRange(stations, state)
    && forall i :: 0 <= i < |stations| ==>
         multiset(stations[i].ports)[state.port] == (if state.current.Some? && state.current.value == i then 1 else 0)
  }

  /** A valid SetStation keeps the client subscribed to exactly one
      station: the one it just chose, whether or not its Announce can be
      built. */
  lemma {:induction false} OnSetStationKeepsSubscribed(stations: seq<Station>, state: ClientState, station: u16)
    requires Subscribed(stations, state)
    requires station < |stations|
    ensures var r := OnSetStation(stations, state, station);
      r.Success? && r.value.state.current == Some(station) && Subscribed(r.value.stations, r.value.state)
  {
  }

  /** Where a run of SetStation messages leaves the session: the registry,
      the session state, the Announce frames sent, and the error that ended
      the session early, if one did. */
  datatype SessionEnd = SessionEnd(stations: seq<Station>, state: ClientState, announced: seq<Frame>, stoppedBy: Option<Error>)

  /** A station number the source handles without panicking: it names a
      station whose song path fits the 256-byte buffer. */
  predicate Announceable(stations: seq<Station>, station: u16) {
    station < |stations| && |stations[station].songPath| <= TextSize
  }

  /** The session loop fed a sequence of station numbers. It stops at the
      first number with no station, leaving the registry as it was, and at
      the first song path too long for the buffer, keeping the registry
      update that preceded the panic. */
  function Selections(stations: seq<Station>, state: ClientState, choices: seq<u16>): (r: SessionEnd)
    requires CurrentInRange(stations, state)
    ensures |r.stations| == |stations|
    ensures r.state.port == state.port
    ensures |r.announced| <= |choices|
    ensures r.stoppedBy.Some? ==> r.stoppedBy.value.NoSuchStation? || r.stoppedBy.value.PathTooLong?
    decreases |choices|
  {
    if |choices| == 0 then SessionEnd(stations, state, [], None)
    else
      match OnSetStation(stations, state, choices[0])
      case Failure(e) => SessionEnd(stations, state, [], Some(e))
      case Success(step) =>
        match step.announce
        case Failure(e) => SessionEnd(step.stations, step.state, [], Some(e))
        case Success(frame) =>
          var rest := Selections(step.stations, step.state, choices[1..]);
          rest.(announced := [frame] + rest.announced)
  }

  /** The session handles every choice in turn, answering each with one
      Announce, if and only if every station number names a station whose
      song path fits the buffer. */
  lemma {:induction false} SelectionsSucceed(stations: seq<Station>, state: ClientState, choices: seq<u16>)
    requires CurrentInRange(stations, state)
    ensures Selections(stations, state, choices).stoppedBy.None? <==>
      forall k :: 0 <= k < |choices| ==> Announceable(stations, choices[k])
    ensures Selections(stations, state, choices).stoppedBy.None? ==>
      |Selections(stations, state, choices).announced| == |choices|
    decreases |choices|
  {
    var r := Selections(stations, state, choices);
    if |choices| > 0 {
      if choices[0] >= |stations| {
        assert r.stoppedBy.Some? && !Announceable(stations, choices[0]);
      } else {
        var step := OnSetStation(stations, state, choices[0]).value;
        if step.announce.Failure? {
          assert r.stoppedBy.Some? && !Announceable(stations, choices[0]);
        } else {
          var tail := choices[1..];
          var rest := Selections(step.stations, step.state, tail);
          SelectionsSucceed(step.stations, step.state, tail);
          assert r.stoppedBy == rest.stoppedBy && r.announced == [step.announce.value] + rest.announced;
          assert forall c :: Announceable(step.stations, c) <==> Announceable(stations, c);
          assert Announceable(stations, choices[0]);
          assert forall k :: 0 <= k < |tail| ==> tail[k] == choices[k + 1];
          assert (forall k :: 0 <= k < |choices| ==> Announceable(stations, choices[k])) <==>
            (forall k :: 0 <= k < |tail| ==> Announceable(stations, tail[k]));
        }
      }
    }
  }

  /** Each Announce a run sends answers the SetStation at the same
      position: frame k is the source's Announce of the song of station
      `choices[k]`, and the frames stop where the run stops. */
  lemma {:induction false} SelectionsAnnounce(stations: seq<Station>, state: ClientState, choices: seq<u16>)
    requires CurrentInRange(stations, state)
    ensures var r := Selections(stations, state, choices);
      && |r.announced| <= |choices|
      && forall k :: 0 <= k < |r.announced| ==>
           && choices[k] < |stations|
           && Success(r.announced[k]) == FrameOf(AnnounceAsWritten(stations[choices[k]].songPath))
    decreases |choices|
  {
    if |choices| > 0 && choices[0] < |stations| {
      var step := OnSetStation(stations, state, choices[0]).value;
      if step.announce.Success? {
        SelectionsAnnounce(step.stations, step.state, choices[1..]);
        var rest := Selections(step.stations, step.state, choices[1..]);
        var r := Selections(stations, state, choices);
        assert r.announced == [step.announce.value] + rest.announced;
        forall k | 1 <= k < |r.announced|
          ensures choices[k] < |stations|
          ensures Success(r.announced[k]) == FrameOf(AnnounceAsWritten(stations[choices[k]].songPath))
        {
          assert r.announced[k] == rest.announced[k - 1];
          assert choices[k] == choices[1..][k - 1];
          assert step.stations[choices[k]].songPath == stations[choices[k]].songPath;
        }
      }
    }
  }

  /** A session touches only its own port: after any run every song path
      is unchanged and every other port occurs in every list as often as
      before. */
  lemma {:induction false} SelectionsKeepOthers(stations: seq<Station>, state: ClientState, choices: seq<u16>)
    requires CurrentInRange(stations, state)
    ensures var r := Selections(stations, state, choices);
      && (forall i :: 0 <= i < |stations| ==> r.stations[i].songPath == stations[i].songPath)
      && (forall i, x :: 0 <= i < |stations| && x != state.port ==>
            multiset(r.stations[i].ports)[x] == multiset(stations[i].ports)[x])
    decreases |choices|
  {
    if |choices| > 0 && choices[0] < |stations| {
      var step := OnSetStation(stations, state, choices[0]).value;
      if step.announce.Success? {
        SelectionsKeepOthers(step.stations, step.state, choices[1..]);
      }
    }
  }

  /** A run that handles every choice leaves the session on the last
      station chosen. */
  lemma {:induction false} SelectionsEndOnLast(stations: seq<Station>, state: ClientState, choices: seq<u16>)
    requires CurrentInRange(stations, state)
    ensures var r := Selections(stations, state, choices);
      r.stoppedBy.None? && |choices| > 0 ==> r.state.current == Some(choices[|choices| - 1])
    decreases |choices|
  {
    if |choices| > 0 && choices[0] < |stations| {
      var step := OnSetStation(stations, state, choices[0]).value;
      if step.announce.Success? && |choices| > 1 {
        SelectionsEndOnLast(step.stations, step.state, choices[1..]);
        assert choices[1..][|choices[1..]| - 1] == choices[|choices| - 1];
      }
    }
  }

  /** However many times a client switches stations, and even when the
      session stops early, the client's port is in exactly one list, once:
      that of the last station whose registry update took place. A run
      that completes ends on the last station chosen. */
  lemma {:induction false} SelectionsKeepSubscribed(stations: seq<Station>, state: ClientState, choices: seq<u16>)
    requires Subscribed(stations, state)
    ensures var r := Selections(stations, state, choices);
      && Subscribed(r.stations, r.state)
      && |r.stations| == |stations|
      && (r.stoppedBy.None? && |choices| > 0 ==> r.state.current == Some(choices[|choices| - 1]))
    decreases |choices|
  {
    SelectionsEndOnLast(stations, state, choices);
    if |choices| > 0 && choices[0] < |stations| {
      OnSetStationKeepsSubscribed(stations, state, choices[0]);
      var step := OnSetStation(stations, state, choices[0]).value;
      if step.announce.Success? {
        SelectionsKeepSubscribed(step.stations, step.state, choices[1..]);
      }
    }
  }
}
